=== FILE: README.md ===
# Roguelike core in Dafny

This project models two deterministic cores of a turn-based roguelike written in Rust.

- **Map carving and exit placement** (`src/map_builder/common.rs`). A level is a `Map`: width, height, depth and a row-major tile array indexed by `y * width + x`. Three operations carve Floor into it: a room interior, a horizontal tunnel and a vertical tunnel. The same file holds the reachability pass, a helper that builders use to finish a level. That pass turns floor the start cannot reach within the 200-step budget into Wall, and puts the down stairs on the farthest reached floor tile.
- **The run-state scheduler and the level lifecycle** (`src/main.rs`). The `RunState` machine decides the next state each frame from the current state and the answer of the collaborator that state consults (input handling, the inventory menu, the targeting cursor, the main, settings and game-over menus, the save-file check). The lifecycle decides which entities survive a descent. It builds the next level one depth deeper, places the player on it and heals the player. It also resets the world after a game over.

Modules, following the source:

| module | file | models |
|---|---|---|
| `Options` | options.dfy | optional components and unreached distances |
| `Grid` | grid.dfy | tiles, rooms, the map and its index arithmetic |
| `Carving` | carving.dfy | `apply_room_to_map`, `apply_horizontal_tunnel`, `apply_vertical_tunnel` |
| `Exit` | exit.dfy | `cull_and_set_exit` and the step budget `MAX_STEPS` |
| `Ecs` | ecs.dfy | entities with their relevant components, the world resources, a builder's output |
| `Lifecycle` | lifecycle.dfy | `entities_to_remove_on_level_change`, `goto_next_level`, `game_over_cleanup`, `generate_world_map` |
| `Scheduler` | scheduler.dfy | `RunState`, the collaborator results, and the state machine inside `tick` |

The carving operations are written as recursive functions. Each one writes Floor cell by cell, in the same order as the Rust loops. Each contract says, for every tile index, which tiles end up Floor, using the index's column (`i % width`) and row (`i / width`). The reachability pass is a method whose loop follows the Rust loop. The shortest-path lengths are a parameter, one per tile, with `None` when no path exists. The step budget is applied inside the model.

Notes on the code:

- `SettingsMenu` is a run state of its own, entered from the main menu's Settings entry.
- When no floor tile has a positive reached distance, the stairs go on tile 0, whatever that tile is.
- Stairs already present before the pass are kept. The result can therefore hold more than one StairsDown tile, although the pass writes exactly one.

## Model

| member | source | states |
|---|---|---|
| Grid.Map.XyIdx | src/map_builder/common.rs:10 | the index of an on-map cell (x, y), as the carving loops compute it, lies inside the tile array, and its column and row are x and y again |
| Grid.IndexOfCell | src/map_builder/common.rs:10 | the converse half of the index bijection: every index of the tile array lies on the map and is the index of its own column and row |
| Grid.CellIndex | src/map_builder/common.rs:10 | the index `y*width+x` of an on-map cell lies inside the tile array, and its column and row give back x and y |
| Carving.FillRow | src/map_builder/common.rs:17-20 | carving cells lo..hi-1 of row y one at a time leaves Floor exactly on those cells; every other tile and the map's shape are unchanged |
| Carving.FillColumn | src/map_builder/common.rs:24-27 | carving rows lo..hi-1 of column x one at a time leaves Floor exactly on those cells; every other tile and the map's shape are unchanged |
| Carving.FillRows | src/map_builder/common.rs:8-13 | the nested row/column loops leave Floor exactly on rows y..y2-1 and columns strictly between x1 and x2; nothing else changes |
| Carving.ApplyRoomToMap | src/map_builder/common.rs:7-14 | a tile becomes Floor exactly when x1 < x < x2 and y1 < y < y2; the room's border and everything outside keep their tiles; width, height, depth and array length are kept |
| Carving.ApplyHorizontalTunnel | src/map_builder/common.rs:16-21 | row y becomes Floor between the two end columns, both included, in either order; no other tile changes |
| Carving.ApplyVerticalTunnel | src/map_builder/common.rs:23-28 | column x becomes Floor between the two end rows, both included, in either order; no other tile changes |
| Carving.RoomOnlyWritesFloor | src/map_builder/common.rs:7-14 | carving a room keeps the map's shape and changes a tile only to Floor |
| Carving.HorizontalTunnelOnlyWritesFloor | src/map_builder/common.rs:16-21 | carving a horizontal tunnel keeps the map's shape and changes a tile only to Floor |
| Carving.VerticalTunnelOnlyWritesFloor | src/map_builder/common.rs:23-28 | carving a vertical tunnel keeps the map's shape and changes a tile only to Floor |
| Carving.RoomIdempotent | src/map_builder/common.rs:7-14 | carving the same room twice gives the same map as carving it once |
| Carving.HorizontalTunnelIdempotent | src/map_builder/common.rs:16-21 | carving the same horizontal tunnel twice gives the same map as carving it once |
| Carving.VerticalTunnelIdempotent | src/map_builder/common.rs:23-28 | carving the same vertical tunnel twice gives the same map as carving it once |
| Carving.HorizontalTunnelSymmetric | src/map_builder/common.rs:17 | swapping x1 and x2 gives the same map |
| Carving.VerticalTunnelSymmetric | src/map_builder/common.rs:24 | swapping y1 and y2 gives the same map |
| Exit.CullAndSetExit | src/map_builder/common.rs:56-82 | the exit is the first floor tile with the largest positive reached distance, or tile 0 when there is none. It becomes StairsDown. Every other tile is Wall if it was unreached floor and is kept otherwise. No tile becomes Floor, no unreached floor remains, and the StairsDown tiles are the exit plus those already there |
| Exit.ScanStep | src/map_builder/common.rs:74-77 | the strict `>` comparison keeps the exit on the first tile of maximal distance: after each tile, the running exit and best distance are the exit rule for the tiles scanned so far |
| Exit.CulledTiles | src/map_builder/common.rs:66-81 | after the pass, a Floor tile was Floor before and is reached, and a tile is StairsDown exactly when it is the exit or already was StairsDown |
| Exit.NoCandidateExitsAtZero | src/map_builder/common.rs:64-81 | for every tile array and distance field: when no tile is floor reached at a positive distance, the exit rule picks tile 0, whatever that tile holds |
| Exit.ExitUnique | src/map_builder/common.rs:64-81 | the exit rule determines one tile: two tiles that both satisfy it are the same tile |
| Ecs.RangeOf | src/main.rs:215 | the range found for an item is the `Ranged` range of a live entity with that handle; none is found only when no such entity has a range |
| Lifecycle.EntitiesToRemoveOnLevelChange | src/main.rs:76-95 | an entity is in the removal list exactly when it is live and is neither the player, nor in the player's backpack, nor equipped by the player. So the player is never removed, and an item owned by anyone else is |
| Lifecycle.RemovalKeepsOrder | src/main.rs:82-92 | the removal list is a filter: the list for a concatenation is the concatenation of the lists, so the entities' order is kept |
| Lifecycle.DeleteEntities | src/main.rs:99-105 | after deleting a list of entities, the live entities are exactly those not in the list |
| Lifecycle.LevelChangePartition | src/main.rs:82-105 | survivors and removed entities together are exactly the entities before the level change (as a multiset), and the survivors are exactly the retained entities |
| Lifecycle.HalfTowardZero | src/main.rs:117 | 32-bit `max_hp / 2` rounds toward zero: for non-negative n, 2h <= n <= 2h+1; for negative n, 2h-1 <= n <= 2h <= 0 |
| Lifecycle.HealOnDescent | src/main.rs:115-118 | the heal never lowers hp, leaves hp at least max_hp/2, sets it either to its old value or to max_hp/2, and never raises it above a non-negative max_hp |
| Lifecycle.GenerateWorldMap | src/main.rs:142-167 | the built map replaces the current one, and the spawned entities join the live entities (after the existing ones, in the model's list). The shared player position equals the builder's start. The player entity has a Position exactly when it had one, and it is the start; it has a Viewshed exactly when it had one, the same one marked dirty. No other entity or component changes |
| Lifecycle.GotoNextLevel | src/main.rs:98-119 | the map is the one built at depth + 1, the position resource is the new start, and the log gains the descent message. The handles afterwards are exactly those of the retained entities and of the spawns. Every retained entity and spawn other than the player is live and unchanged, and every live entity is either the player or one of those. A live entity keeps its handle exactly when it is retained (entities with distinct handles, fresh spawns). The player entity comes from an entity before the descent with the same components except: a Position exactly when that one had one, at the start; a Viewshed exactly when that one had one, marked dirty; combat stats exactly when that one had them, with hp raised to max(hp, max_hp/2) |
| Lifecycle.DescentEntities | src/main.rs:98-119 | after deletion, generation and the heal, the handles are those of the retained entities and spawns, those entities other than the player are unchanged, every live entity is the player or one of them, and the player entity is its earlier self moved to the start (Position and Viewshed present exactly as before, the Viewshed dirty), with its stats healed to max(hp, max_hp/2) and every other component kept |
| Lifecycle.GameOverCleanup | src/main.rs:122-167 | after the reset the map is the one built at depth 1 and the log holds only the welcome message. The new player entity is the player; in the model's list it is the first entity, with every component kept except that it has a Position exactly when the spawned player had one, at the start, and a Viewshed exactly when it had one, the same one marked dirty. The position resource is the start. The live entities are exactly the new player and the new level's spawns, and every spawn with another handle is unchanged |
| Lifecycle.DescentDepth | src/main.rs:108-138 | for a builder that honours the requested depth, a descent yields depth + 1 and a reset yields depth 1 |
| Scheduler.Schedule | src/main.rs:189-320 | a tick descends exactly from NextLevel. It records an intent only from an item menu, and only when moving to PlayerTurn. It resets the world only on the way to PreRun or to MainMenu(NewGame). It ends the process exactly when Quit is chosen in the main menu. GameOver either stays or resets into MainMenu(NewGame) |
| Scheduler.RecordIntent | src/main.rs:218-264 | the player carries the recorded intent, which replaces an earlier intent of the same kind. The player's intents of the other kinds and its other components are kept, and no other entity changes |
| Scheduler.Tick | src/main.rs:178-323 | the state the tick stores is the machine's next state. When an intent is recorded, the player carries it and every other entity is unchanged. A descent appends the descent message, and a reset leaves only the welcome message with the new player. A tick with no effect, a save or a quit leaves the world unchanged; the system batches, input handling and loading change it only as the `external` parameter says |
| Scheduler.TurnCycle | src/main.rs:197-204 | PlayerTurn is followed by MonsterTurn and then AwaitingInput, each running the full system batch, whatever the collaborators answer |
| Scheduler.SystemsRunOnlyOnTurns | src/main.rs:190-204 | the full system batch runs exactly in PlayerTurn and MonsterTurn, and the pre-run batch exactly in PreRun |
| Scheduler.FixedTransitions | src/main.rs:190-212 | PreRun goes to AwaitingInput, NextLevel goes to PreRun, SaveGame goes to MainMenu(LoadGame) |
| Scheduler.ItemMenusWaitOrCancel | src/main.rs:213-269 | in the four item menus, no response keeps the state and has no effect, and Cancel goes to AwaitingInput |
| Scheduler.IntentExactlyOnConfirm | src/main.rs:213-269 | from an item menu, PlayerTurn follows exactly when an intent is recorded. Drop records the drop of the selected item, remove records its removal, and targeting records its use at the chosen target |
| Scheduler.RangedItemsAskForTarget | src/main.rs:213-227 | selecting a ranged item in the use menu opens targeting with its range and records nothing; selecting any other item records its use without a target and starts the player's turn |
| Scheduler.TargetingEntry | src/main.rs:194-269 | targeting is entered only from the use menu with a ranged item, kept while waiting, or requested by input handling |
| Scheduler.MenuTransitions | src/main.rs:270-313 | browsing the main menu moves its highlight, and NewGame resets the world and goes to PreRun. LoadGame reaches AwaitingInput exactly when a save exists, and otherwise stays on MainMenu(LoadGame). Settings opens SettingsMenu(Audio); browsing it moves its highlight, and Back, from any settings entry, returns to MainMenu(Settings) |
| Scheduler.GameOverLeavesOnlyToMenu | src/main.rs:314-319 | the game-over screen stays exactly until QuitToMenu, which resets the world and goes to MainMenu(NewGame) |
| Scheduler.NewGameScenario | src/main.rs:270-276 | choosing New Game gives PreRun on a depth-1 map with the new player at the builder's start; the next tick gives AwaitingInput |
| Scheduler.DescentTick | src/main.rs:209-212 | the NextLevel tick gives PreRun on a map one level deeper, appends the descent message and leaves the player with at least max_hp/2 hit points |

## Left out

- `gen_voronoi_regions`: it depends on the library's cellular float noise and on truncating floats to integers.
- The shortest-path search: the library's Dijkstra map and the map's neighbour relation are not part of this model. The reachability pass receives each tile's shortest path length as a parameter. The library's `f32` distances are modelled as natural numbers.
- The Dijkstra cut-off: it is inside the library. The model assumes a path of `MAX_STEPS` or more steps is not recorded, and that every shorter path is.
- `xy_idx`: the map module that defines it is not part of this model. Its index `y * width + x` is used with an on-map precondition. Off-map coordinates, which the source would let wrap into a neighbouring row or panic on, are excluded.
- Carving.ApplyRoomToMap: requires every interior cell of the room to lie on the map, for the reason above.
- Carving.ApplyHorizontalTunnel: requires both end cells on the map, for the reason above.
- Carving.ApplyVerticalTunnel: requires both end cells on the map, for the reason above.
- Exit.CullAndSetExit: requires a non-empty tile array and one path length per tile. On an empty map the final write to tile 0 would panic.
- Rendering, console set-up, the HUD, the camera, and the particle culling driven by frame time: output and float timing.
- The system batches (`pre_run_systems`, `all_systems`) and `cull_dead_characters`: their code is not part of this model. A tick names the batch it runs as an effect, and what the batch does to the world is the `external` parameter of Scheduler.Tick.
- Scheduler.Tick: after storing the next state, the tick calls `cull_dead_characters` (src/main.rs:323-324), which can write the run state (presumably GameOver when the player dies: no arm other than input handling, whose code is not part of this model, moves into GameOver) and delete entities. Its code is not part of this model, so Tick states the state the match stores, not what that call may overwrite it with.
- `respond_to_input` and the menu bodies: only their results are modelled, as datatypes. Side effects of input handling are the `external` parameter of Scheduler.Tick.
- The settings entries Audio, Visual, Keybindings and Accessibility abort as unimplemented. Scheduler.Schedule excludes them by precondition.
- Quit ends the process. The model reports it as the `ExitProcess` effect and keeps the state.
- `src/save_load_util.rs`: serialization and file I/O. Saving leaves the modelled world unchanged, since the helper entity it creates is deleted again. What loading does to the world is the `external` parameter of Scheduler.Tick. As written, the save goes to `./saves/savegame.json`, while the existence check, load and delete use `./savegame.json`. Also, two serialized components are not deserialized. So no save/load round trip holds.
- The random number generator and the choice of map builder: the builder is a parameter from (width, height, depth) to a level, and it is called with the 64 x 64 map size.
- `spawn_player`: the new player entity is a parameter of the reset.
- `spawn_entities`: the spawned entities are the builder's level output.
- The storage order of live entities: the ECS keeps entities in slots that `maintain()` frees for reuse (src/main.rs:105, 124). The model keeps a list, and whatever it says about order (the removal list's order, spawns after survivors, the new player first) is about that list, not the program's iteration order.
- The log's display, the other fields of the combat stats, and the visible tiles of a viewshed.
- Lifecycle.GotoNextLevel: the statement about which handles survive assumes distinct handles among the live entities, and spawns with new handles. The entity allocator provides both.
- Lifecycle.GotoNextLevel: `depth + 1` is unbounded; 32-bit overflow of the depth counter is not modelled.
- The `expect` failures on deleting an entity or recording an intent on a dead player: live entities are assumed. The player is never deleted.

=== FILE: carving.dfy ===
/** Carving rooms and corridors into a level's tile grid. Each operation
    writes Floor cell by cell in the order of the Rust loops; its
    contract says which tiles end up Floor, by column and row. */
module Carving {

  import opened Grid

  /** The interior of a room: strictly inside its corners. */
  predicate InInterior(room: Rect, x: int, y: int)
  {
    room.x1 < x < room.x2 && room.y1 < y < room.y2
  }

  /** Every interior cell of the room lies on the map. */
  predicate RoomFits(m: Map, room: Rect)
  {
    room.x1 + 1 < room.x2 && room.y1 + 1 < room.y2 ==>
      0 <= room.x1 + 1 && room.x2 <= m.width && 0 <= room.y1 + 1 && room.y2 <= m.height
  }

  /** `after` differs from `before` only in tiles that became Floor. */
  predicate OnlyCarves(before: Map, after: Map)
  {
    before.SameShape(after)
    && forall j :: 0 <= j < |before.tiles| ==>
         after.tiles[j] == before.tiles[j] || after.tiles[j] == Floor
  }

  function Min(a: int, b: int): int { if a <= b then a else b }

  function Max(a: int, b: int): int { if a <= b then b else a }

  /** Writes Floor to cells lo .. hi-1 of row y, left to right. */
  function FillRow(m: Map, y: int, lo: int, hi: int): (r: Map)
    requires m.Valid()
    requires lo < hi ==> 0 <= lo && hi <= m.width && 0 <= y < m.height
    ensures m.SameShape(r) && r.Valid()
    ensures forall j :: 0 <= j < |m.tiles| ==>
      r.tiles[j] == (if m.Row(j) == y && lo <= m.Col(j) < hi then Floor else m.tiles[j])
    decreases hi - lo
  {
    if lo >= hi then m
    else
      var i := m.XyIdx(lo, y);
      CellOfIndex(m, lo, y);
      FillRow(m.(tiles := m.tiles[i := Floor]), y, lo + 1, hi)
  }

  /** Writes Floor to cells lo .. hi-1 of column x, top to bottom. */
  function FillColumn(m: Map, x: int, lo: int, hi: int): (r: Map)
    requires m.Valid()
    requires lo < hi ==> 0 <= lo && hi <= m.height && 0 <= x < m.width
    ensures m.SameShape(r) && r.Valid()
    ensures forall j :: 0 <= j < |m.tiles| ==>
      r.tiles[j] == (if m.Col(j) == x && lo <= m.Row(j) < hi then Floor else m.tiles[j])
    decreases hi - lo
  {
    if lo >= hi then m
    else
      var i := m.XyIdx(x, lo);
      CellOfIndex(m, x, lo);
      FillColumn(m.(tiles := m.tiles[i := Floor]), x, lo + 1, hi)
  }

  /** Carves the interior columns of rows y .. room.y2-1 of the room. */
  function FillRows(m: Map, room: Rect, y: int): (r: Map)
    requires m.Valid()
    requires y < room.y2 && room.x1 + 1 < room.x2 ==>
      0 <= y && room.y2 <= m.height && 0 <= room.x1 + 1 && room.x2 <= m.width
    ensures m.SameShape(r) && r.Valid()
    ensures forall j :: 0 <= j < |m.tiles| ==>
      r.tiles[j] == (if y <= m.Row(j) < room.y2 && room.x1 < m.Col(j) < room.x2
                     then Floor else m.tiles[j])
    decreases room.y2 - y
  {
    if y >= room.y2 then m
    else FillRows(FillRow(m, y, room.x1 + 1, room.x2), room, y + 1)
  }

  /** Fills the interior of a room with Floor: exactly the cells strictly
      inside its corners become Floor, its border and everything outside it
      keep their tiles. */
  function ApplyRoomToMap(m: Map, room: Rect): (r: Map)
    requires m.Valid() && RoomFits(m, room)
    ensures m.SameShape(r) && r.Valid()
    ensures forall j :: 0 <= j < |m.tiles| ==>
      r.tiles[j] == (if InInterior(room, m.Col(j), m.Row(j)) then Floor else m.tiles[j])
  {
    FillRows(m, room, room.y1 + 1)
  }

  /** Carves row y between columns x1 and x2, both ends included, whichever
      of the two is smaller. */
  function ApplyHorizontalTunnel(m: Map, x1: int, x2: int, y: int): (r: Map)
    requires m.Valid() && m.InBounds(x1, y) && m.InBounds(x2, y)
    ensures m.SameShape(r) && r.Valid()
    ensures forall j :: 0 <= j < |m.tiles| ==>
      r.tiles[j] == (if m.Row(j) == y && (x1 <= m.Col(j) <= x2 || x2 <= m.Col(j) <= x1)
                     then Floor else m.tiles[j])
  {
    FillRow(m, y, Min(x1, x2), Max(x1, x2) + 1)
  }

  /** Carves column x between rows y1 and y2, both ends included, whichever
      of the two is smaller. */
  function ApplyVerticalTunnel(m: Map, y1: int, y2: int, x: int): (r: Map)
    requires m.Valid() && m.InBounds(x, y1) && m.InBounds(x, y2)
    ensures m.SameShape(r) && r.Valid()
    ensures forall j :: 0 <= j < |m.tiles| ==>
      r.tiles[j] == (if m.Col(j) == x && (y1 <= m.Row(j) <= y2 || y2 <= m.Row(j) <= y1)
                     then Floor else m.tiles[j])
  {
    FillColumn(m, x, Min(y1, y2), Max(y1, y2) + 1)
  }

  /** Carving a room keeps the map's shape and only ever writes Floor. */
  lemma RoomOnlyWritesFloor(m: Map, room: Rect)
    requires m.Valid() && RoomFits(m, room)
    ensures OnlyCarves(m, ApplyRoomToMap(m, room))
  {
  }

  /** Carving a horizontal tunnel keeps the map's shape and only ever writes
      Floor. */
  lemma HorizontalTunnelOnlyWritesFloor(m: Map, x1: int, x2: int, y: int)
    requires m.Valid() && m.InBounds(x1, y) && m.InBounds(x2, y)
    ensures OnlyCarves(m, ApplyHorizontalTunnel(m, x1, x2, y))
  {
  }

  /** Carving a vertical tunnel keeps the map's shape and only ever writes
      Floor. */
  lemma VerticalTunnelOnlyWritesFloor(m: Map, y1: int, y2: int, x: int)
    requires m.Valid() && m.InBounds(x, y1) && m.InBounds(x, y2)
    ensures OnlyCarves(m, ApplyVerticalTunnel(m, y1, y2, x))
  {
  }

  /** Carving a room a second time changes nothing. */
  lemma RoomIdempotent(m: Map, room: Rect)
    requires m.Valid() && RoomFits(m, room)
    ensures ApplyRoomToMap(ApplyRoomToMap(m, room), room) == ApplyRoomToMap(m, room)
  {
  }

  /** Carving a horizontal tunnel a second time changes nothing. */
  lemma HorizontalTunnelIdempotent(m: Map, x1: int, x2: int, y: int)
    requires m.Valid() && m.InBounds(x1, y) && m.InBounds(x2, y)
    ensures ApplyHorizontalTunnel(ApplyHorizontalTunnel(m, x1, x2, y), x1, x2, y)
         == ApplyHorizontalTunnel(m, x1, x2, y)
  {
  }

  /** Carving a vertical tunnel a second time changes nothing. */
  lemma VerticalTunnelIdempotent(m: Map, y1: int, y2: int, x: int)
    requires m.Valid() && m.InBounds(x, y1) && m.InBounds(x, y2)
    ensures ApplyVerticalTunnel(ApplyVerticalTunnel(m, y1, y2, x), y1, y2, x)
         == ApplyVerticalTunnel(m, y1, y2, x)
  {
  }

  /** The order of the two end columns of a horizontal tunnel does not matter. */
  lemma HorizontalTunnelSymmetric(m: Map, x1: int, x2: int, y: int)
    requires m.Valid() && m.InBounds(x1, y) && m.InBounds(x2, y)
    ensures ApplyHorizontalTunnel(m, x1, x2, y) == ApplyHorizontalTunnel(m, x2, x1, y)
  {
  }

  /** The order of the two end rows of a vertical tunnel does not matter. */
  lemma VerticalTunnelSymmetric(m: Map, y1: int, y2: int, x: int)
    requires m.Valid() && m.InBounds(x, y1) && m.InBounds(x, y2)
    ensures ApplyVerticalTunnel(m, y1, y2, x) == ApplyVerticalTunnel(m, y2, y1, x)
  {
  }
}

=== FILE: ecs.dfy ===
/** The part of the entity world the scheduler and the level lifecycle touch.
    An entity is a record of its identity and the components that matter
    here; the world holds the entities and the shared resources (the map `grid`,
    the player handle, the player position and the message log). */
module Ecs {

  import opened Options
  import opened Grid

  /** Entity handles; the entity allocator guarantees distinct live entities
      distinct handles. */
  type EntityId = nat

  /** The library's `Point`, also used for `Position` components. */
  datatype Point = Point(x: int, y: int)

  /** The combat figures the lifecycle reads; attack and defence are left out. */
  datatype CombatStats = CombatStats(maxHp: int, hp: int)

  /** A field of view; only the flag that forces a recompute is modelled. */
  datatype Viewshed = Viewshed(range: int, dirty: bool)

  /** The intent to use an item, optionally at a target cell. */
  datatype UseItem = UseItem(item: EntityId, target: Option<Point>)

  /** An intent the item menus record on the player. */
  datatype Intent =
    | UseIntent(use: UseItem)
    | DropIntent(dropped: EntityId)
    | RemoveIntent(removed: EntityId)

  datatype Entity = Entity(
    id: EntityId,
    position: Option<Point>,
    stats: Option<CombatStats>,
    viewshed: Option<Viewshed>,
    inBackpackOf: Option<EntityId>,   // `InBackpack.owner`
    equippedBy: Option<EntityId>,     // `Equipped.owner`
    ranged: Option<int>,              // `Ranged.range`
    wantsToUse: Option<UseItem>,
    wantsToDrop: Option<EntityId>,
    wantsToRemove: Option<EntityId>)

  /** The world: live entities, the player handle, the current map, the
      shared player position and the message log. */
  datatype World = World(
    entities: seq<Entity>,
    player: EntityId,
    grid: Map,
    playerPoint: Point,
    log: seq<string>)

  /** What a map builder hands back: the map, where the player starts and
      the entities it populated the level with. */
  datatype Level = Level(grid: Map, start: Point, spawns: seq<Entity>)

  function Ids(es: seq<Entity>): set<EntityId>
  {
    set e | e in es :: e.id
  }

  /** No two live entities share a handle. */
  predicate UniqueIds(es: seq<Entity>)
  {
    forall i, j :: 0 <= i < j < |es| ==> es[i].id != es[j].id
  }

  /** The range of the item's `Ranged` component, if the item is live and
      has one. */
  function RangeOf(es: seq<Entity>, item: EntityId): (r: Option<int>)
    ensures r.Some? ==> exists e :: e in es && e.id == item && e.ranged == r
    ensures r.None? ==> forall e :: e in es && e.id == item ==> e.ranged.None?
  {
    if es == [] then None
    else if es[0].id == item && es[0].ranged.Some? then es[0].ranged
    else RangeOf(es[1..], item)
  }
}

=== FILE: exit.dfy ===
/** The reachability pass the map builders' shared helpers provide: floor
    that cannot be reached from the start within the step budget is walled
    up, and the down stairs go on the reached floor tile farthest from the
    start.

    The shortest-path field itself comes from the roguelike library's
    Dijkstra map, whose neighbour relation is the map's exits; neither is part
    of this model. The pass receives, for every tile, the length of a shortest
    path from the start (`None` when no path exists) and applies the step
    budget itself. */
module Exit {

  import opened Options
  import opened Grid

  /** The Dijkstra map stops counting at this many steps. */
  const MaxSteps: nat := 200

  /** A tile is reached when a path to it exists and is shorter than the
      step budget; every other tile keeps the "unreached" distance. */
  predicate Reached(pathLen: Option<nat>)
  {
    pathLen.Some? && pathLen.value < MaxSteps
  }

  /** The distance the Dijkstra map records for a tile: the path length when
      reached, `None` (the library's maximum float) otherwise. */
  function DijkstraValue(pathLen: Option<nat>): Option<nat>
  {
    if Reached(pathLen) then pathLen else None
  }

  /** What the pass does to a tile other than the exit: unreached floor
      becomes wall, every other tile is kept. */
  function Culled(t: TileType, pathLen: Option<nat>): TileType
  {
    if t == Floor && !Reached(pathLen) then Wall else t
  }

  /** Tile j may host the exit: reached floor at a positive distance. */
  ghost predicate Candidate(tiles: seq<TileType>, pathLen: seq<Option<nat>>, j: int)
    requires |pathLen| == |tiles|
  {
    0 <= j < |tiles| && tiles[j] == Floor && Reached(pathLen[j]) && pathLen[j].value > 0
  }

  /** Some tile among 0 .. n-1 may host the exit. */
  ghost predicate HasCandidate(tiles: seq<TileType>, pathLen: seq<Option<nat>>, n: nat)
    requires |pathLen| == |tiles|
  {
    exists j :: 0 <= j < n && Candidate(tiles, pathLen, j)
  }

  /** `e` is where the exit goes when only tiles 0 .. n-1 are considered:
      the first candidate whose distance is maximal, or tile 0 when there is
      no candidate at all. */
  ghost predicate FarthestAmong(tiles: seq<TileType>, pathLen: seq<Option<nat>>, n: nat, e: nat)
    requires |pathLen| == |tiles| && n <= |tiles|
  {
    if HasCandidate(tiles, pathLen, n) then
      && e < n
      && Candidate(tiles, pathLen, e)
      && (forall j :: 0 <= j < n && Candidate(tiles, pathLen, j) ==>
            pathLen[j].value <= pathLen[e].value)
      && (forall j :: 0 <= j < e && Candidate(tiles, pathLen, j) ==>
            pathLen[j].value < pathLen[e].value)
    else
      e == 0
  }

  /** The exit of the whole map. */
  ghost predicate IsExit(tiles: seq<TileType>, pathLen: seq<Option<nat>>, e: nat)
    requires |pathLen| == |tiles|
  {
    FarthestAmong(tiles, pathLen, |tiles|, e)
  }

  /** The exit rule picks one tile: no two tiles both satisfy it. */
  lemma ExitUnique(tiles: seq<TileType>, pathLen: seq<Option<nat>>, e1: nat, e2: nat)
    requires |pathLen| == |tiles|
    requires IsExit(tiles, pathLen, e1) && IsExit(tiles, pathLen, e2)
    ensures e1 == e2
  {
  }

  /** The degenerate case: when no tile is reached floor at a positive
      distance (only the start is reached, say), the exit falls on tile 0,
      whatever that tile holds. */
  lemma NoCandidateExitsAtZero(tiles: seq<TileType>, pathLen: seq<Option<nat>>)
    requires |pathLen| == |tiles|
    requires forall j :: 0 <= j < |tiles| ==> !Candidate(tiles, pathLen, j)
    ensures IsExit(tiles, pathLen, 0)
  {
  }

  /** After scanning tiles 0 .. n-1, the exit so far and the best distance
      so far agree with the exit rule for that prefix. */
  ghost predicate ScanState(tiles: seq<TileType>, pathLen: seq<Option<nat>>, n: nat, exit: nat, best: nat)
    requires |pathLen| == |tiles| && n <= |tiles|
  {
    && FarthestAmong(tiles, pathLen, n, exit)
    && (HasCandidate(tiles, pathLen, n) ==> Candidate(tiles, pathLen, exit) && best == pathLen[exit].value)
    && (!HasCandidate(tiles, pathLen, n) ==> best == 0)
  }

  /** One step of the scan: tile i replaces the exit exactly when it is
      reached floor strictly farther than the best so far. */
  lemma {:induction false} ScanStep(tiles: seq<TileType>, pathLen: seq<Option<nat>>, i: nat,
                                    exit: nat, best: nat, exit': nat, best': nat)
    requires |pathLen| == |tiles| && i < |tiles|
    requires ScanState(tiles, pathLen, i, exit, best)
    requires if tiles[i] == Floor && Reached(pathLen[i]) && pathLen[i].value > best
             then exit' == i && best' == pathLen[i].value
             else exit' == exit && best' == best
    ensures ScanState(tiles, pathLen, i + 1, exit', best')
  {
    if Candidate(tiles, pathLen, i) {
      assert HasCandidate(tiles, pathLen, i + 1);
    } else {
      assert HasCandidate(tiles, pathLen, i + 1) <==> HasCandidate(tiles, pathLen, i) by {
        if HasCandidate(tiles, pathLen, i + 1) {
          var j :| 0 <= j < i + 1 && Candidate(tiles, pathLen, j);
          assert j < i;
        }
      }
    }
  }

  /** Walls up unreached floor and writes the down stairs at the exit,
      scanning the tiles in index order and keeping the first tile whose
      distance beats every earlier one. Also returns the exit index. */
  method CullAndSetExit(m: Map, pathLen: seq<Option<nat>>) returns (r: Map, exit: nat)
    requires m.Valid() && 0 < |m.tiles| && |pathLen| == |m.tiles|
    ensures m.SameShape(r) && r.Valid()
    ensures IsExit(m.tiles, pathLen, exit)
    ensures r.tiles[exit] == StairsDown
    ensures forall i :: 0 <= i < |m.tiles| && i != exit ==> r.tiles[i] == Culled(m.tiles[i], pathLen[i])
    ensures forall i :: 0 <= i < |r.tiles| && r.tiles[i] == Floor ==>
      m.tiles[i] == Floor && Reached(pathLen[i])
    ensures forall i :: 0 <= i < |r.tiles| ==>
      (r.tiles[i] == StairsDown <==> i == exit || m.tiles[i] == StairsDown)
  {
    var tiles := m.tiles;
    exit := 0;
    var best: nat := 0;
    var i := 0;
    while i < |tiles|
      invariant 0 <= i <= |tiles| == |m.tiles|
      invariant forall j :: 0 <= j < i ==> tiles[j] == Culled(m.tiles[j], pathLen[j])
      invariant forall j :: i <= j < |tiles| ==> tiles[j] == m.tiles[j]
      invariant ScanState(m.tiles, pathLen, i, exit, best)
    {
      ghost var exit0, best0 := exit, best;
      if tiles[i] == Floor {
        var d := DijkstraValue(pathLen[i]);
        if d.None? {
          tiles := tiles[i := Wall];
        } else if d.value > best {
          exit := i;
          best := d.value;
        }
      }
      ScanStep(m.tiles, pathLen, i, exit0, best0, exit, best);
      i := i + 1;
    }
    tiles := tiles[exit := StairsDown];
    r := m.(tiles := tiles);
    CulledTiles(m, pathLen, r, exit);
  }

  /** Consequences of the pass for every tile: floor that remains was floor
      before and is reached, and the stairs are the exit plus those that were
      already there. */
  lemma CulledTiles(m: Map, pathLen: seq<Option<nat>>, r: Map, exit: nat)
    requires |pathLen| == |m.tiles| == |r.tiles| && exit < |m.tiles|
    requires r.tiles[exit] == StairsDown
    requires forall i :: 0 <= i < |m.tiles| && i != exit ==> r.tiles[i] == Culled(m.tiles[i], pathLen[i])
    ensures forall i :: 0 <= i < |r.tiles| && r.tiles[i] == Floor ==>
      m.tiles[i] == Floor && Reached(pathLen[i])
    ensures forall i :: 0 <= i < |r.tiles| ==>
      (r.tiles[i] == StairsDown <==> i == exit || m.tiles[i] == StairsDown)
  {
  }
}

=== FILE: grid.dfy ===
/** The tile grid of one dungeon level: a dense array of tiles addressed by
    `y * width + x`, the only addressing scheme the builders use. */
module Grid {

  datatype TileType = Wall | Floor | StairsDown

  /** A rectangle stored by two opposite corners, as the builders' `Rect` is. */
  datatype Rect = Rect(x1: int, y1: int, x2: int, y2: int)

  datatype Map = Map(width: nat, height: nat, depth: int, tiles: seq<TileType>)
  {
    /** The tile array always holds exactly one tile per cell. */
    predicate Valid()
    {
      |tiles| == width * height
    }

    predicate InBounds(x: int, y: int)
    {
      0 <= x < width && 0 <= y < height
    }

    /** Column of tile index `i`; a map of width zero has no tiles. */
    function Col(i: int): int
    {
      if width == 0 then 0 else i % width
    }

    /** Row of tile index `i`; a map of width zero has no tiles. */
    function Row(i: int): int
    {
      if width == 0 then 0 else i / width
    }

    /** The index of cell (x, y). The cell must lie on the map: the map module
        that defines it is not part of this model, so its bounds check is
        stated as a precondition. */
    function XyIdx(x: int, y: int): (i: nat)
      requires Valid() && InBounds(x, y)
      ensures i < |tiles|
      ensures Col(i) == x && Row(i) == y
    {
      CellIndex(width, height, x, y);
      y * width + x
    }

    /** Same width, height and depth, and a well-formed tile array. */
    predicate SameShape(other: Map)
    {
      other.width == width && other.height == height && other.depth == depth
      && |other.tiles| == |tiles|
    }
  }

  lemma MulLeq(a: int, b: int, c: nat)
    requires a <= b
    ensures a * c <= b * c
  {
  }

  /** Row-major indexing is a bijection between cells and the indices below
      `w * h`: the index of (x, y) lies in range and its column and row are
      x and y again. */
  lemma {:induction false} CellIndex(w: nat, h: nat, x: int, y: int)
    requires 0 <= x < w && 0 <= y < h
    ensures 0 <= y * w + x < w * h
    ensures (y * w + x) % w == x && (y * w + x) / w == y
  {
    MulLeq(y + 1, h, w);
    MulLeq(0, y, w);
    var i := y * w + x;
    var q, r := i / w, i % w;
    assert i == q * w + r && 0 <= r < w;
    if q > y {
      MulLeq(y + 1, q, w);
      assert false;
    } else if q < y {
      MulLeq(q + 1, y, w);
      assert false;
    }
  }

  /** An index on the map is the index of its own column and row, so two
      indices with the same column and row are equal. */
  lemma IndexOfCell(m: Map, i: int)
    requires m.Valid() && 0 <= i < |m.tiles|
    ensures m.InBounds(m.Col(i), m.Row(i))
    ensures m.XyIdx(m.Col(i), m.Row(i)) == i
  {
    assert m.width > 0;
    var q := i / m.width;
    assert q * m.width <= i;
    if q >= m.height {
      MulLeq(m.height, q, m.width);
      assert false;
    }
  }

  /** An index is the index of cell (x, y) exactly when its column is x and
      its row is y. */
  lemma CellOfIndex(m: Map, x: int, y: int)
    requires m.Valid() && m.InBounds(x, y)
    ensures forall j :: 0 <= j < |m.tiles| ==>
      (j == m.XyIdx(x, y) <==> m.Col(j) == x && m.Row(j) == y)
  {
  }
}

=== FILE: lifecycle.dfy ===
/** What happens to the world between levels: which entities survive a
    descent, how the next level is generated and the player placed on it,
    the heal on descent, and the reset after a game over. The map builder is
    a parameter: given the map width, height and depth it returns the level
    (its random choices are outside this model). */
module Lifecycle {

  import opened Options
  import opened Grid
  import opened Ecs

  const MapWidth: int := 64
  const MapHeight: int := 64

  const DescendMessage: string := "You descend to the next level."
  const WelcomeMessage: string := "Welcome to my Roguelike!"

  /** The level a builder produces at the given depth. */
  function Built(build: (int, int, int) -> Level, depth: int): Level
  {
    build(MapWidth, MapHeight, depth)
  }

  /** A builder that produces maps of the depth it was asked for. */
  predicate BuildsAtDepth(build: (int, int, int) -> Level, depth: int)
  {
    Built(build, depth).grid.depth == depth
  }

  /** An entity stays across a level change when it is the player, is in the
      player's backpack, or is equipped by the player. */
  predicate Retained(e: Entity, player: EntityId)
  {
    e.id == player || e.inBackpackOf == Some(player) || e.equippedBy == Some(player)
  }

  /** The entities a level change deletes: a filter over the live entities
      that keeps everything not retained, in the original order. */
  function EntitiesToRemoveOnLevelChange(es: seq<Entity>, player: EntityId): (r: seq<Entity>)
    ensures forall e :: e in r <==> e in es && !Retained(e, player)
    ensures |r| <= |es|
  {
    if es == [] then []
    else
      (if Retained(es[0], player) then [] else [es[0]])
      + EntitiesToRemoveOnLevelChange(es[1..], player)
  }

  /** The removal list of a concatenation is the concatenation of the
      removal lists: the filter keeps the relative order of the entities. */
  lemma {:induction false} RemovalKeepsOrder(a: seq<Entity>, b: seq<Entity>, player: EntityId)
    ensures EntitiesToRemoveOnLevelChange(a + b, player)
         == EntitiesToRemoveOnLevelChange(a, player) + EntitiesToRemoveOnLevelChange(b, player)
  {
    if a == [] {
      assert a + b == b;
    } else {
      assert (a + b)[0] == a[0];
      assert (a + b)[1..] == a[1..] + b;
      RemovalKeepsOrder(a[1..], b, player);
    }
  }

  /** The live entities after every entity in `doomed` is deleted. */
  function DeleteEntities(es: seq<Entity>, doomed: seq<Entity>): (r: seq<Entity>)
    ensures forall e :: e in r <==> e in es && e !in doomed
    ensures |r| <= |es|
  {
    if es == [] then []
    else
      (if es[0] in doomed then [] else [es[0]]) + DeleteEntities(es[1..], doomed)
  }

  /** Deleting the removal list splits the entities in two: what is deleted
      and what survives together are exactly the entities before, and the
      survivors are the retained ones. */
  lemma LevelChangePartition(es: seq<Entity>, doomed: seq<Entity>, player: EntityId)
    requires forall e :: e in es ==> (e in doomed <==> !Retained(e, player))
    ensures multiset(DeleteEntities(es, doomed)) + multiset(EntitiesToRemoveOnLevelChange(es, player))
         == multiset(es)
    ensures forall e :: e in DeleteEntities(es, doomed) <==> e in es && Retained(e, player)
  {
    PartitionCounts(es, doomed, player);
  }

  /** The multiset half of the partition, by induction over the entities. */
  lemma {:induction false} PartitionCounts(es: seq<Entity>, doomed: seq<Entity>, player: EntityId)
    requires forall i :: 0 <= i < |es| ==> (es[i] in doomed <==> !Retained(es[i], player))
    ensures multiset(DeleteEntities(es, doomed)) + multiset(EntitiesToRemoveOnLevelChange(es, player))
         == multiset(es)
  {
    if es != [] {
      PartitionCounts(es[1..], doomed, player);
      DeleteHead(es, doomed);
      RemoveHead(es, player);
      MultisetCons(es);
      ConsSplit(es[0], es[1..], DeleteEntities(es, doomed), DeleteEntities(es[1..], doomed),
                EntitiesToRemoveOnLevelChange(es, player), EntitiesToRemoveOnLevelChange(es[1..], player),
                Retained(es[0], player));
    }
  }

  /** When one part gains `x` and the other does not, and the two parts of
      the tail make up the tail, the two parts make up `x` followed by the
      tail. */
  lemma ConsSplit<T>(x: T, tail: seq<T>, kept: seq<T>, keptTail: seq<T>, removed: seq<T>,
                     removedTail: seq<T>, keep: bool)
    requires multiset(kept) == (if keep then multiset{x} else multiset{}) + multiset(keptTail)
    requires multiset(removed) == (if keep then multiset{} else multiset{x}) + multiset(removedTail)
    requires multiset(keptTail) + multiset(removedTail) == multiset(tail)
    ensures multiset(kept) + multiset(removed) == multiset{x} + multiset(tail)
  {
  }

  /** A non-empty sequence is its head followed by its tail, as a multiset. */
  lemma MultisetCons<T>(s: seq<T>)
    requires s != []
    ensures multiset(s) == multiset{s[0]} + multiset(s[1..])
  {
    assert s == [s[0]] + s[1..];
  }

  /** Deleting from a non-empty list: the head survives unless doomed. */
  lemma DeleteHead(es: seq<Entity>, doomed: seq<Entity>)
    requires es != []
    ensures multiset(DeleteEntities(es, doomed))
         == (if es[0] in doomed then multiset{} else multiset{es[0]}) + multiset(DeleteEntities(es[1..], doomed))
  {
  }

  /** The removal list of a non-empty list: the head is removed unless retained. */
  lemma RemoveHead(es: seq<Entity>, player: EntityId)
    requires es != []
    ensures multiset(EntitiesToRemoveOnLevelChange(es, player))
         == (if Retained(es[0], player) then multiset{} else multiset{es[0]})
            + multiset(EntitiesToRemoveOnLevelChange(es[1..], player))
  {
  }

  /** Integer halving as the source's 32-bit division does it: rounded
      toward zero. */
  function HalfTowardZero(n: int): (h: int)
    ensures n >= 0 ==> 0 <= 2 * h <= n <= 2 * h + 1
    ensures n < 0 ==> 2 * h - 1 <= n <= 2 * h <= 0
  {
    if n >= 0 then n / 2 else -((-n) / 2)
  }

  /** The heal on descent: hit points rise to half the maximum when below it
      and are never lowered. */
  function HealOnDescent(s: CombatStats): (r: CombatStats)
    ensures r.maxHp == s.maxHp
    ensures r.hp >= s.hp && r.hp >= HalfTowardZero(s.maxHp)
    ensures r.hp == s.hp || r.hp == HalfTowardZero(s.maxHp)
    ensures 0 <= s.maxHp && s.hp <= s.maxHp ==> r.hp <= r.maxHp
  {
    var half := HalfTowardZero(s.maxHp);
    s.(hp := if s.hp >= half then s.hp else half)
  }

  /** Moves the player entity to `start` (when it has a position) and marks
      its field of view for recomputation (when it has one). */
  function PlacePlayer(e: Entity, player: EntityId, start: Point): Entity
  {
    if e.id != player then e
    else
      e.(position := if e.position.Some? then Some(start) else None,
         viewshed := if e.viewshed.Some? then Some(e.viewshed.value.(dirty := true)) else None)
  }

  /** Heals the player entity, if it has combat stats. */
  function HealPlayer(e: Entity, player: EntityId): Entity
  {
    if e.id == player && e.stats.Some? then e.(stats := Some(HealOnDescent(e.stats.value))) else e
  }

  /** `after` is `before` moved to `start`: it has a Position exactly when
      `before` has one, and that Position is `start`; it has a Viewshed
      exactly when `before` has one, the same one but marked dirty. */
  predicate MovedTo(before: Entity, after: Entity, start: Point)
  {
    && after.position.Some? == before.position.Some?
    && (after.position.Some? ==> after.position.value == start)
    && after.viewshed.Some? == before.viewshed.Some?
    && (after.viewshed.Some? ==> after.viewshed.value == before.viewshed.value.(dirty := true))
  }

  /** Heals the player entity among `es`, leaving every entity in place. */
  function HealAll(es: seq<Entity>, player: EntityId): (r: seq<Entity>)
    ensures |r| == |es| && forall i :: 0 <= i < |es| ==> r[i] == HealPlayer(es[i], player)
  {
    seq(|es|, i requires 0 <= i < |es| => HealPlayer(es[i], player))
  }

  /** Installs the level built at `newDepth`: its map replaces the current
      one, its entities join the world, and the player entity and the shared
      player position move to its start. */
  function GenerateWorldMap(w: World, build: (int, int, int) -> Level, newDepth: int): (r: World)
    ensures r.grid == Built(build, newDepth).grid
    ensures r.playerPoint == Built(build, newDepth).start
    ensures r.player == w.player && r.log == w.log
    ensures |r.entities| == |w.entities| + |Built(build, newDepth).spawns|
    ensures forall i :: 0 <= i < |r.entities| ==>
      var before := (w.entities + Built(build, newDepth).spawns)[i];
      && r.entities[i].id == before.id
      && r.entities[i] == before.(position := r.entities[i].position, viewshed := r.entities[i].viewshed)
      && (before.id != w.player ==> r.entities[i] == before)
      && (before.id == w.player ==> MovedTo(before, r.entities[i], Built(build, newDepth).start))
    ensures forall e :: e in r.entities && e.id == w.player ==>
      && (e.position.Some? ==> e.position == Some(Built(build, newDepth).start))
      && (e.viewshed.Some? ==> e.viewshed.value.dirty)
  {
    var level := Built(build, newDepth);
    var es := w.entities + level.spawns;
    w.(grid := level.grid,
       playerPoint := level.start,
       entities := seq(|es|, i requires 0 <= i < |es| => PlacePlayer(es[i], w.player, level.start)))
  }

  /** The level's spawned entities are new: none has the handle of an entity
      already in the world. */
  predicate FreshSpawns(es: seq<Entity>, level: Level)
  {
    forall s :: s in level.spawns ==> s.id !in Ids(es)
  }

  /** Two entity lists that agree on handles position by position have the
      same handles. */
  lemma SameIds(a: seq<Entity>, b: seq<Entity>)
    requires |a| == |b| && forall i :: 0 <= i < |a| ==> a[i].id == b[i].id
    ensures Ids(a) == Ids(b)
  {
  }

  /** Goes down a level: deletes every entity that is not retained, builds
      the map one level deeper, places the player on it, logs the descent
      and heals the player to at least half of its maximum. */
  function GotoNextLevel(w: World, build: (int, int, int) -> Level): (r: World)
    ensures r.grid == Built(build, w.grid.depth + 1).grid
    ensures r.player == w.player
    ensures r.playerPoint == Built(build, w.grid.depth + 1).start
    ensures r.log == w.log + [DescendMessage]
    ensures UniqueIds(w.entities) && FreshSpawns(w.entities, Built(build, w.grid.depth + 1)) ==>
      forall e :: e in w.entities ==> (e.id in Ids(r.entities) <==> Retained(e, w.player))
    ensures forall e :: e in r.entities && e.id == w.player && e.stats.Some? ==>
      e.stats.value.hp >= HalfTowardZero(e.stats.value.maxHp)
    ensures Ids(r.entities) == RetainedIds(w.entities, w.player) + Ids(Built(build, w.grid.depth + 1).spawns)
    ensures forall e :: CarriedOver(e, w, Built(build, w.grid.depth + 1)) ==> e in r.entities
    ensures forall e :: e in r.entities ==> e.id == w.player || CarriedOver(e, w, Built(build, w.grid.depth + 1))
    ensures forall e :: e in r.entities && e.id == w.player ==>
      && PlacedAt(e, Built(build, w.grid.depth + 1).start)
      && exists b :: b in w.entities + Built(build, w.grid.depth + 1).spawns && b.id == w.player
                     && Descended(b, e, Built(build, w.grid.depth + 1).start)
  {
    var doomed := EntitiesToRemoveOnLevelChange(w.entities, w.player);
    var kept := DeleteEntities(w.entities, doomed);
    var placed := GenerateWorldMap(w.(entities := kept), build, w.grid.depth + 1);
    var healed := HealAll(placed.entities, w.player);
    SurvivingIds(w, build, kept, placed.entities, healed);
    DescentEntities(w, build, kept, placed.entities, healed);
    placed.(log := placed.log + [DescendMessage], entities := healed)
  }

  /** The handles of the live entities that a level change keeps. */
  function RetainedIds(es: seq<Entity>, player: EntityId): set<EntityId>
  {
    set e | e in es && Retained(e, player) :: e.id
  }

  /** An entity other than the player that the descent keeps, or that the
      new level spawns. */
  predicate CarriedOver(e: Entity, w: World, level: Level)
  {
    ((e in w.entities && Retained(e, w.player)) || e in level.spawns) && e.id != w.player
  }

  /** The player entity stands at `start`, if it has a position, and must
      recompute its field of view, if it has one. */
  predicate PlacedAt(e: Entity, start: Point)
  {
    (e.position.Some? ==> e.position == Some(start)) && (e.viewshed.Some? ==> e.viewshed.value.dirty)
  }

  /** The player entity after a descent: `before` moved to `start`, healed
      by the descent heal (so no hit points lost), and every other component
      kept. */
  predicate Descended(before: Entity, after: Entity, start: Point)
  {
    && after == before.(position := after.position, viewshed := after.viewshed, stats := after.stats)
    && MovedTo(before, after, start)
    && NotHurt(before, after)
    && after.stats == (if before.stats.Some? then Some(HealOnDescent(before.stats.value)) else None)
  }

  /** `after` has the combat stats of `before` with the same maximum and no
      fewer hit points. */
  predicate NotHurt(before: Entity, after: Entity)
  {
    && before.stats.Some? == after.stats.Some?
    && (after.stats.Some? ==>
          after.stats.value.maxHp == before.stats.value.maxHp && after.stats.value.hp >= before.stats.value.hp)
  }

  /** After a descent every retained entity and every spawn other than the
      player is live and unchanged, the handles are exactly theirs, and the
      player stands at the start, must recompute its view, and has kept its
      maximum and not lost hit points. */
  lemma DescentEntities(w: World, build: (int, int, int) -> Level, kept: seq<Entity>,
                        placed: seq<Entity>, healed: seq<Entity>)
    requires forall e :: e in kept <==> e in w.entities && Retained(e, w.player)
    requires |placed| == |kept| + |Built(build, w.grid.depth + 1).spawns|
    requires forall i :: 0 <= i < |placed| ==>
      var before := (kept + Built(build, w.grid.depth + 1).spawns)[i];
      && placed[i] == before.(position := placed[i].position, viewshed := placed[i].viewshed)
      && (before.id != w.player ==> placed[i] == before)
      && (before.id == w.player ==> MovedTo(before, placed[i], Built(build, w.grid.depth + 1).start))
    requires forall e :: e in placed && e.id == w.player ==> PlacedAt(e, Built(build, w.grid.depth + 1).start)
    requires |healed| == |placed| && forall i :: 0 <= i < |placed| ==> healed[i] == HealPlayer(placed[i], w.player)
    ensures Ids(healed) == RetainedIds(w.entities, w.player) + Ids(Built(build, w.grid.depth + 1).spawns)
    ensures forall e :: CarriedOver(e, w, Built(build, w.grid.depth + 1)) ==> e in healed
    ensures forall e :: e in healed ==> e.id == w.player || CarriedOver(e, w, Built(build, w.grid.depth + 1))
    ensures forall e :: e in healed && e.id == w.player ==>
      && PlacedAt(e, Built(build, w.grid.depth + 1).start)
      && exists b :: b in w.entities + Built(build, w.grid.depth + 1).spawns && b.id == w.player
                     && Descended(b, e, Built(build, w.grid.depth + 1).start)
  {
    var spawns := Built(build, w.grid.depth + 1).spawns;
    var all := kept + spawns;
    assert Ids(kept) == RetainedIds(w.entities, w.player);
    assert Ids(healed) == Ids(all) by {
      forall i | 0 <= i < |healed| ensures healed[i].id == all[i].id { }
      SameIds(healed, all);
    }
    assert Ids(all) == Ids(kept) + Ids(spawns);
    forall e | CarriedOver(e, w, Built(build, w.grid.depth + 1))
      ensures e in healed
    {
      var i: int;
      if e in kept {
        var k :| 0 <= k < |kept| && kept[k] == e;
        i := k;
      } else {
        var k :| 0 <= k < |spawns| && spawns[k] == e;
        i := |kept| + k;
      }
      assert all[i] == e;
      assert healed[i] == e;
    }
    forall e | e in healed && e.id != w.player
      ensures CarriedOver(e, w, Built(build, w.grid.depth + 1))
    {
      var i :| 0 <= i < |healed| && healed[i] == e;
      assert healed[i] == all[i];
      if i < |kept| {
        assert all[i] == kept[i];
      } else {
        assert all[i] == spawns[i - |kept|];
      }
    }
    forall e | e in healed && e.id == w.player
      ensures PlacedAt(e, Built(build, w.grid.depth + 1).start)
      ensures exists b :: b in w.entities + spawns && b.id == w.player
                          && Descended(b, e, Built(build, w.grid.depth + 1).start)
    {
      var i :| 0 <= i < |healed| && healed[i] == e;
      var b := all[i];
      assert placed[i] in placed;
      PlayerDescended(b, placed[i], e, w.player, Built(build, w.grid.depth + 1).start);
      if i < |kept| {
        assert b == kept[i];
      } else {
        assert b == spawns[i - |kept|];
      }
      assert b in w.entities + spawns;
    }
  }

  /** Placing the player and then healing it is a descent of the player
      entity. */
  lemma PlayerDescended(before: Entity, placed: Entity, after: Entity, player: EntityId, start: Point)
    requires before.id == player
    requires placed == before.(position := placed.position, viewshed := placed.viewshed)
    requires MovedTo(before, placed, start)
    requires after == HealPlayer(placed, player)
    ensures Descended(before, after, start)
  {
  }

  /** The handles after a descent are those of the retained entities and of
      the new level's spawns. */
  lemma SurvivingIds(w: World, build: (int, int, int) -> Level, kept: seq<Entity>,
                     placed: seq<Entity>, healed: seq<Entity>)
    requires forall e :: e in kept <==> e in w.entities && Retained(e, w.player)
    requires |placed| == |kept| + |Built(build, w.grid.depth + 1).spawns|
    requires forall i :: 0 <= i < |placed| ==>
      placed[i].id == (kept + Built(build, w.grid.depth + 1).spawns)[i].id
    requires |healed| == |placed| && forall i :: 0 <= i < |placed| ==> healed[i].id == placed[i].id
    ensures UniqueIds(w.entities) && FreshSpawns(w.entities, Built(build, w.grid.depth + 1)) ==>
      forall e :: e in w.entities ==> (e.id in Ids(healed) <==> Retained(e, w.player))
  {
    var spawns := Built(build, w.grid.depth + 1).spawns;
    SameIds(healed, placed);
    SameIds(placed, kept + spawns);
    assert Ids(kept + spawns) == Ids(kept) + Ids(spawns);
    if UniqueIds(w.entities) && FreshSpawns(w.entities, Built(build, w.grid.depth + 1)) {
      forall e | e in w.entities
        ensures e.id in Ids(healed) <==> Retained(e, w.player)
      {
        if e.id in Ids(kept) {
          var k :| k in kept && k.id == e.id;
          var i :| 0 <= i < |w.entities| && w.entities[i] == k;
          var j :| 0 <= j < |w.entities| && w.entities[j] == e;
          assert i == j;
        }
        assert e.id in Ids(w.entities);
        assert e.id !in Ids(spawns);
      }
    }
  }

  /** Starts over after a game over: every entity is deleted, the log holds
      only the welcome message, a new player entity (`newPlayer`, as the player
      spawner creates it at the origin) becomes the player, and the first
      level is built and the player placed on it. */
  function GameOverCleanup(w: World, build: (int, int, int) -> Level, newPlayer: Entity): (r: World)
    ensures r.grid == Built(build, 1).grid
    ensures r.player == newPlayer.id
    ensures r.playerPoint == Built(build, 1).start
    ensures r.log == [WelcomeMessage]
    ensures Ids(r.entities) == {newPlayer.id} + Ids(Built(build, 1).spawns)
    ensures |r.entities| == 1 + |Built(build, 1).spawns|
    ensures r.entities[0] == newPlayer.(position := r.entities[0].position, viewshed := r.entities[0].viewshed)
    ensures MovedTo(newPlayer, r.entities[0], Built(build, 1).start)
    ensures forall e :: e in r.entities && e.id == newPlayer.id ==> PlacedAt(e, Built(build, 1).start)
    ensures forall s :: s in Built(build, 1).spawns && s.id != newPlayer.id ==> s in r.entities
  {
    var reset := World([newPlayer], newPlayer.id, w.grid, Point(0, 0), [WelcomeMessage]);
    var r := GenerateWorldMap(reset, build, 1);
    var all := [newPlayer] + Built(build, 1).spawns;
    SameIds(r.entities, all);
    assert forall k :: 0 <= k < |Built(build, 1).spawns| ==> all[k + 1] == Built(build, 1).spawns[k];
    assert Ids(all) == Ids([newPlayer]) + Ids(Built(build, 1).spawns);
    r
  }

  /** A descent generates the map exactly one level deeper, and a reset
      generates depth 1, for a builder that honours the depth it is given. */
  lemma DescentDepth(w: World, build: (int, int, int) -> Level, newPlayer: Entity)
    requires BuildsAtDepth(build, w.grid.depth + 1) && BuildsAtDepth(build, 1)
    ensures GotoNextLevel(w, build).grid.depth == w.grid.depth + 1
    ensures GameOverCleanup(w, build, newPlayer).grid.depth == 1
  {
  }
}

=== FILE: options.dfy ===
/** The optional value used for components an entity may lack and for
    distances that were never reached. */
module Options {

  datatype Option<+T> = None | Some(value: T)
}

=== FILE: scheduler.dfy ===
/** The per-frame scheduler: one tick reads the current run state, consults
    the collaborator that state delegates to (input handling, a menu, the
    save file check), and publishes the next run state together with the
    effect the tick has on the world. */
module Scheduler {

  import opened Options
  import opened Ecs
  import opened Lifecycle

  datatype MainMenuSelection = NewGame | LoadGame | Settings | Quit

  datatype SettingsSelection = Audio | Visual | Keybindings | Accessibility | Back

  datatype RunState =
    | AwaitingInput
    | GameOver
    | MainMenu(menuSelection: MainMenuSelection)
    | SettingsMenu(settingsSelection: SettingsSelection)
    | MonsterTurn
    | NextLevel
    | PlayerTurn
    | PreRun
    | SaveGame
    | ShowDropItem
    | ShowInventory
    | ShowRemoveItem
    | ShowTargeting(range: int, item: EntityId)

  /** What the inventory menu reports for this frame. */
  datatype ItemMenuResult = Cancel | NoResponse | Selected(item: EntityId)

  /** What the targeting cursor reports for this frame. */
  datatype TargetResult = TargetCancel | TargetNoResponse | TargetSelected(target: Point)

  /** What the main menu reports: the option under the cursor, or the chosen one. */
  datatype MainMenuResult =
    | NoSelection(highlighted: MainMenuSelection)
    | Selection(chosen: MainMenuSelection)

  /** What the settings menu reports: the option under the cursor, or the chosen one. */
  datatype SettingsMenuResult =
    | SettingsNoSelection(highlightedSetting: SettingsSelection)
    | SettingsChosen(chosenSetting: SettingsSelection)

  datatype GameOverResult = GameOverNoSelection | QuitToMenu

  /** The answers the collaborators would give this frame; a tick reads only
      the one its run state consults. The drop and remove menus are drawn by
      the same inventory menu as the use menu, so all three read `inventory`. */
  datatype Collaborators = Collaborators(
    input: RunState,              // the state input handling asks for
    inventory: ItemMenuResult,
    targeting: TargetResult,
    mainMenu: MainMenuResult,
    settingsMenu: SettingsMenuResult,
    gameOver: GameOverResult,
    saveExists: bool)

  /** What a tick does to the world besides publishing the next state. */
  datatype Effect =
    | NoEffect
    | PreRunSystems            // the pre-run system batch runs once
    | AllSystems               // the full system batch runs once
    | PlayerInput              // input handling may move the player or act
    | SaveWorld                // the world is written to the save file
    | AdvanceLevel             // the world descends one level
    | Record(intent: Intent)   // the intent is attached to the player
    | ResetWorld               // the world is reset for a new game
    | LoadSave                 // the save is loaded, then deleted
    | ExitProcess              // the process ends; no state is published

  datatype Step = Step(next: RunState, effect: Effect)

  /** The states that wait on the inventory menu or the targeting cursor. */
  predicate IsItemMenu(s: RunState)
  {
    s.ShowInventory? || s.ShowDropItem? || s.ShowRemoveItem? || s.ShowTargeting?
  }

  /** The settings entries other than Back are not implemented and abort. */
  predicate ChoosesUnimplementedSetting(s: RunState, c: Collaborators)
  {
    s.SettingsMenu? && c.settingsMenu.SettingsChosen? && c.settingsMenu.chosenSetting != Back
  }

  /** One tick of the run-state machine. `es` are the live entities, read
      only to see whether a chosen item has a range. */
  function Schedule(s: RunState, c: Collaborators, es: seq<Entity>): (t: Step)
    requires !ChoosesUnimplementedSetting(s, c)
    ensures t.effect == AdvanceLevel <==> s == NextLevel
    ensures t.effect.Record? ==> t.next == PlayerTurn && IsItemMenu(s)
    ensures t.effect == ResetWorld ==> t.next == PreRun || t.next == MainMenu(NewGame)
    ensures t.effect == ExitProcess <==> s.MainMenu? && c.mainMenu == Selection(Quit)
    ensures s == GameOver ==> t.next == GameOver || t == Step(MainMenu(NewGame), ResetWorld)
  {
    match s
    case PreRun => Step(AwaitingInput, PreRunSystems)
    case AwaitingInput => Step(c.input, PlayerInput)
    case PlayerTurn => Step(MonsterTurn, AllSystems)
    case MonsterTurn => Step(AwaitingInput, AllSystems)
    case SaveGame => Step(MainMenu(LoadGame), SaveWorld)
    case NextLevel => Step(PreRun, AdvanceLevel)
    case ShowInventory =>
      (match c.inventory
       case Selected(item) =>
         (match RangeOf(es, item)
          case Some(range) => Step(ShowTargeting(range, item), NoEffect)
          case None => Step(PlayerTurn, Record(UseIntent(UseItem(item, None)))))
       case Cancel => Step(AwaitingInput, NoEffect)
       case NoResponse => Step(s, NoEffect))
    case ShowDropItem =>
      (match c.inventory
       case Selected(item) => Step(PlayerTurn, Record(DropIntent(item)))
       case Cancel => Step(AwaitingInput, NoEffect)
       case NoResponse => Step(s, NoEffect))
    case ShowRemoveItem =>
      (match c.inventory
       case Selected(item) => Step(PlayerTurn, Record(RemoveIntent(item)))
       case Cancel => Step(AwaitingInput, NoEffect)
       case NoResponse => Step(s, NoEffect))
    case ShowTargeting(range, item) =>
      (match c.targeting
       case TargetSelected(target) => Step(PlayerTurn, Record(UseIntent(UseItem(item, Some(target)))))
       case TargetCancel => Step(AwaitingInput, NoEffect)
       case TargetNoResponse => Step(s, NoEffect))
    case MainMenu(_) =>
      (match c.mainMenu
       case NoSelection(option) => Step(MainMenu(option), NoEffect)
       case Selection(option) =>
         (match option
          case NewGame => Step(PreRun, ResetWorld)
          case LoadGame =>
            if c.saveExists then Step(AwaitingInput, LoadSave) else Step(MainMenu(LoadGame), NoEffect)
          case Settings => Step(SettingsMenu(Audio), NoEffect)
          case Quit => Step(s, ExitProcess)))
    case SettingsMenu(_) =>
      (match c.settingsMenu
       case SettingsNoSelection(option) => Step(SettingsMenu(option), NoEffect)
       case SettingsChosen(option) => Step(MainMenu(Settings), NoEffect))
    case GameOver =>
      if c.gameOver == QuitToMenu then Step(MainMenu(NewGame), ResetWorld) else Step(s, NoEffect)
  }

  /** The player carries the given intent. */
  predicate Carries(e: Entity, intent: Intent)
  {
    match intent
    case UseIntent(use) => e.wantsToUse == Some(use)
    case DropIntent(item) => e.wantsToDrop == Some(item)
    case RemoveIntent(item) => e.wantsToRemove == Some(item)
  }

  /** Attaches an intent to the player, replacing an earlier intent of the
      same kind; no other entity and no other component changes. */
  function RecordIntent(w: World, intent: Intent): (r: World)
    ensures r.player == w.player && r.grid == w.grid && r.playerPoint == w.playerPoint && r.log == w.log
    ensures |r.entities| == |w.entities|
    ensures forall i :: 0 <= i < |w.entities| ==>
      if w.entities[i].id == w.player then
        && Carries(r.entities[i], intent)
        && r.entities[i] == w.entities[i].(wantsToUse := r.entities[i].wantsToUse,
                                           wantsToDrop := r.entities[i].wantsToDrop,
                                           wantsToRemove := r.entities[i].wantsToRemove)
        && (!intent.UseIntent? ==> r.entities[i].wantsToUse == w.entities[i].wantsToUse)
        && (!intent.DropIntent? ==> r.entities[i].wantsToDrop == w.entities[i].wantsToDrop)
        && (!intent.RemoveIntent? ==> r.entities[i].wantsToRemove == w.entities[i].wantsToRemove)
      else r.entities[i] == w.entities[i]
  {
    var es := w.entities;
    w.(entities := seq(|es|, i requires 0 <= i < |es| =>
         if es[i].id != w.player then es[i]
         else match intent
              case UseIntent(use) => es[i].(wantsToUse := Some(use))
              case DropIntent(item) => es[i].(wantsToDrop := Some(item))
              case RemoveIntent(item) => es[i].(wantsToRemove := Some(item))))
  }

  /** The run state together with the world it governs. */
  datatype Game = Game(state: RunState, world: World)

  /** The effects whose code is outside this model: the system batches,
      input handling and loading a save. */
  predicate ActsOutsideModel(e: Effect)
  {
    e == PreRunSystems || e == AllSystems || e == PlayerInput || e == LoadSave
  }

  /** One tick with its world effects: recording an intent, the descent and
      the reset are modelled; a tick with no effect, one that saves (the
      save helper entity it creates is deleted again) and one that quits
      leave the world as it is. `external` is what the effects outside this
      model do to the world. `build` is the map builder and `newPlayer` the
      player entity the player spawner would create on a reset. The state
      returned is the one the match stores; the dead-character cull that runs
      after it is outside this model. */
  function Tick(g: Game, c: Collaborators, build: (int, int, int) -> Level, newPlayer: Entity,
                external: (Effect, World) -> World): (r: Game)
    requires !ChoosesUnimplementedSetting(g.state, c)
    ensures var t := Schedule(g.state, c, g.world.entities);
      && r.state == t.next
      && (t.effect.Record? ==>
            && r.world.player == g.world.player
            && |r.world.entities| == |g.world.entities|
            && forall i :: 0 <= i < |g.world.entities| ==>
                 if g.world.entities[i].id == g.world.player then Carries(r.world.entities[i], t.effect.intent)
                 else r.world.entities[i] == g.world.entities[i])
      && (t.effect == AdvanceLevel ==> r.world.log == g.world.log + [DescendMessage])
      && (t.effect == ResetWorld ==> r.world.log == [WelcomeMessage] && r.world.player == newPlayer.id)
      && (t.effect == NoEffect || t.effect == SaveWorld || t.effect == ExitProcess ==> r.world == g.world)
      && (ActsOutsideModel(t.effect) ==> r.world == external(t.effect, g.world))
  {
    var t := Schedule(g.state, c, g.world.entities);
    var w := g.world;
    var w' := match t.effect
              case Record(intent) => RecordIntent(w, intent)
              case AdvanceLevel => GotoNextLevel(w, build)
              case ResetWorld => GameOverCleanup(w, build, newPlayer)
              case _ => if ActsOutsideModel(t.effect) then external(t.effect, w) else w;
    Game(t.next, w')
  }

  /** A turn is two ticks of system work: the player's turn is followed by
      the monsters' turn, and then input is awaited again, whatever the
      collaborators answer. */
  lemma TurnCycle(c1: Collaborators, c2: Collaborators, es: seq<Entity>)
    ensures Schedule(PlayerTurn, c1, es) == Step(MonsterTurn, AllSystems)
    ensures Schedule(Schedule(PlayerTurn, c1, es).next, c2, es) == Step(AwaitingInput, AllSystems)
  {
  }

  /** The full system batch runs exactly on the player's and the monsters'
      turns, and the pre-run batch exactly before the first input. */
  lemma SystemsRunOnlyOnTurns(s: RunState, c: Collaborators, es: seq<Entity>)
    requires !ChoosesUnimplementedSetting(s, c)
    ensures Schedule(s, c, es).effect == AllSystems <==> s == PlayerTurn || s == MonsterTurn
    ensures Schedule(s, c, es).effect == PreRunSystems <==> s == PreRun
  {
  }

  /** The fixed transitions that consult no collaborator. */
  lemma FixedTransitions(c: Collaborators, es: seq<Entity>)
    ensures Schedule(PreRun, c, es).next == AwaitingInput
    ensures Schedule(NextLevel, c, es).next == PreRun
    ensures Schedule(SaveGame, c, es).next == MainMenu(LoadGame)
  {
  }

  /** In a menu waiting on the inventory or the targeting cursor, no answer
      keeps the menu open and changes nothing, and cancelling returns to
      awaiting input. */
  lemma ItemMenusWaitOrCancel(s: RunState, c: Collaborators, es: seq<Entity>)
    requires IsItemMenu(s)
    ensures s.ShowTargeting? && c.targeting == TargetNoResponse ==> Schedule(s, c, es) == Step(s, NoEffect)
    ensures !s.ShowTargeting? && c.inventory == NoResponse ==> Schedule(s, c, es) == Step(s, NoEffect)
    ensures s.ShowTargeting? && c.targeting == TargetCancel ==> Schedule(s, c, es) == Step(AwaitingInput, NoEffect)
    ensures !s.ShowTargeting? && c.inventory == Cancel ==> Schedule(s, c, es) == Step(AwaitingInput, NoEffect)
  {
  }

  /** From an item menu, the player's turn starts exactly when an intent is
      recorded, and the intent names the selected item. */
  lemma IntentExactlyOnConfirm(s: RunState, c: Collaborators, es: seq<Entity>)
    requires IsItemMenu(s)
    ensures Schedule(s, c, es).effect.Record? <==> Schedule(s, c, es).next == PlayerTurn
    ensures s == ShowDropItem && c.inventory.Selected? ==>
      Schedule(s, c, es) == Step(PlayerTurn, Record(DropIntent(c.inventory.item)))
    ensures s == ShowRemoveItem && c.inventory.Selected? ==>
      Schedule(s, c, es) == Step(PlayerTurn, Record(RemoveIntent(c.inventory.item)))
    ensures s.ShowTargeting? && c.targeting.TargetSelected? ==>
      Schedule(s, c, es) == Step(PlayerTurn, Record(UseIntent(UseItem(s.item, Some(c.targeting.target)))))
  {
  }

  /** Choosing an item in the use menu asks for a target exactly when the
      item has a range; otherwise it is used at once, without a target. */
  lemma RangedItemsAskForTarget(c: Collaborators, es: seq<Entity>)
    requires c.inventory.Selected?
    ensures var item := c.inventory.item;
      && (RangeOf(es, item).Some? ==>
            Schedule(ShowInventory, c, es) == Step(ShowTargeting(RangeOf(es, item).value, item), NoEffect))
      && (RangeOf(es, item).None? ==>
            Schedule(ShowInventory, c, es) == Step(PlayerTurn, Record(UseIntent(UseItem(item, None)))))
  {
  }

  /** Targeting is entered only from the use menu with a ranged item (or
      kept while waiting, or asked for by input handling). */
  lemma TargetingEntry(s: RunState, c: Collaborators, es: seq<Entity>)
    requires !ChoosesUnimplementedSetting(s, c)
    requires Schedule(s, c, es).next.ShowTargeting?
    ensures var t := Schedule(s, c, es).next;
      || s == t
      || (s == ShowInventory && c.inventory == Selected(t.item) && RangeOf(es, t.item) == Some(t.range))
      || (s == AwaitingInput && c.input == t)
  {
  }

  /** The main and settings menus: browsing moves the highlight, a new game
      resets the world and starts it, loading succeeds exactly when a save
      exists, the settings menu opens on Audio, browsing it moves its
      highlight, and Back, from whichever entry, returns to the main menu on
      the Settings entry. */
  lemma MenuTransitions(o: MainMenuSelection, so: SettingsSelection, c: Collaborators, es: seq<Entity>)
    ensures c.mainMenu.NoSelection? ==> Schedule(MainMenu(o), c, es) == Step(MainMenu(c.mainMenu.highlighted), NoEffect)
    ensures c.mainMenu == Selection(NewGame) ==> Schedule(MainMenu(o), c, es) == Step(PreRun, ResetWorld)
    ensures c.mainMenu == Selection(LoadGame) ==>
      (Schedule(MainMenu(o), c, es).next == AwaitingInput <==> c.saveExists)
    ensures c.mainMenu == Selection(LoadGame) && !c.saveExists ==>
      Schedule(MainMenu(o), c, es) == Step(MainMenu(LoadGame), NoEffect)
    ensures c.mainMenu == Selection(Settings) ==> Schedule(MainMenu(o), c, es) == Step(SettingsMenu(Audio), NoEffect)
    ensures c.settingsMenu.SettingsNoSelection? ==>
      Schedule(SettingsMenu(so), c, es) == Step(SettingsMenu(c.settingsMenu.highlightedSetting), NoEffect)
    ensures c.settingsMenu == SettingsChosen(Back) ==>
      Schedule(SettingsMenu(so), c, es) == Step(MainMenu(Settings), NoEffect)
  {
  }

  /** A game over screen stays up until the player quits to the menu, which
      resets the world and lands on the main menu's New Game entry. */
  lemma GameOverLeavesOnlyToMenu(c: Collaborators, es: seq<Entity>)
    ensures Schedule(GameOver, c, es).next == GameOver <==> c.gameOver != QuitToMenu
    ensures c.gameOver == QuitToMenu ==> Schedule(GameOver, c, es) == Step(MainMenu(NewGame), ResetWorld)
  {
  }

  /** Starting a new game from the main menu: the world is reset onto a
      depth-1 map, the pre-run tick follows, and then input is awaited. */
  lemma NewGameScenario(o: MainMenuSelection, w: World, c1: Collaborators, c2: Collaborators,
                        build: (int, int, int) -> Level, newPlayer: Entity,
                        external: (Effect, World) -> World)
    requires c1.mainMenu == Selection(NewGame) && BuildsAtDepth(build, 1)
    ensures var g1 := Tick(Game(MainMenu(o), w), c1, build, newPlayer, external);
      && g1.state == PreRun
      && g1.world.grid.depth == 1
      && g1.world.player == newPlayer.id
      && g1.world.playerPoint == Built(build, 1).start
      && Tick(g1, c2, build, newPlayer, external).state == AwaitingInput
  {
  }

  /** Taking the stairs: the next tick is the pre-run tick on a map one level
      deeper, with the player healed to at least half of its maximum. */
  lemma DescentTick(w: World, c: Collaborators, build: (int, int, int) -> Level, newPlayer: Entity,
                    external: (Effect, World) -> World)
    requires BuildsAtDepth(build, w.grid.depth + 1)
    ensures var g := Tick(Game(NextLevel, w), c, build, newPlayer, external);
      && g.state == PreRun
      && g.world.grid.depth == w.grid.depth + 1
      && g.world.log == w.log + [DescendMessage]
      && forall e :: e in g.world.entities && e.id == w.player && e.stats.Some? ==>
           e.stats.value.hp >= HalfTowardZero(e.stats.value.maxHp)
  {
  }
}
